=== FILE: README.md ===
# Item-simulator backend: request validation and integrity rules in Dafny

This project models the decision logic of a small game backend built on Express,
Joi and Prisma. Clients create and delete accounts, and create, delete and look up
characters that belong to an account. The model covers four parts:

- the Joi schemas of the account, character and item routes. They are written as data
  (`Validation.Rule`) and read by one interpreter (`Validation.Accepts`);
- the five route handlers. Each one is a pure function from a store and a request to a
  `Step`, which is an outcome plus the store afterwards. The outcome is a success payload
  (`Ok`), an early `return` with a status and an `errorMessage` (`Reply`), or a fault
  passed to `next(err)` (`Raise`);
- the error middleware (`ErrorHandler.Classify`). It is a total, first-match mapping from
  a fault's `name`, `code` and `type` to a status and a message;
- the database, seen through Prisma (`Storage`). Accounts are keyed by `userID`, with
  `email` also unique. Characters are keyed by `name`. An insert that hits a unique key
  raises Prisma's `P2002` fault.

The handlers run their schema and then ignore the error it reports. So in the model the
schemas are predicates beside the handlers, not guards inside them.
`AccountRouter.CreateAccountIgnoresSchema` shows a body the schema refuses that still
creates an account. Joi refuses object keys a schema does not declare, and the model keeps
that rule. Neither character schema declares `userID`. In the model every character request
carries a `userID`, so both schemas refuse every request body the model's handlers receive
(`CharacterRouter.CharacterSchemasRefuseEveryRequest`). A real client may leave `userID` out;
such bodies are not modelled (see "## Left out").

Character deletion reads `account.password` without checking that the requester's account
exists. When the character exists but the account does not, the model raises a `TypeError`
fault, and the middleware answers it with 500. In the model this is the only 500 any route
can produce (`Routes.Handle`). The real program can also answer 500 for Prisma faults that the
model leaves out: argument errors for absent fields, and foreign-key or missing-row faults
(see "## Left out").

Joi measures strings with JavaScript's `String.length`, in UTF-16 code units. The model does
the same (`Validation.Utf16Length`). For the Hangul/alphanumeric pattern this equals the
character count, because every character in the class is in the BMP.

Notes on what the code does:

- There is one generic duplicate message (`이미 등록되어 있는 정보입니다.`), whichever unique
  constraint fired. There are no per-constraint messages.
- Every early return uses status 400. There is no 403 or 404.
- The item-name schema has no character-class restriction.
- The item router declares only the create schema. It has no handlers.

`type` is a Dafny keyword, so the fault's `err.type` is the field `kind` of `ErrorHandler.Fault`.

## Model

| member | source | states |
|---|---|---|
| Validation.Utf16Length | routes/account-router.js:17 | A string's JavaScript length lies between its character count and twice that, and is zero only for the empty string |
| Validation.Utf16LengthOfBmp | routes/account-router.js:13-14 | For text made only of BMP characters, the JavaScript length that `.min`/`.max` compare is the character count |
| Validation.NamePatternIff | routes/account-router.js:15 | The regex `^[가-힣a-zA-Z0-9]+$`, as a matcher, accepts exactly the non-empty strings whose every character is a Hangul syllable U+AC00–U+D7A3 or an ASCII letter or digit |
| Validation.PatternLengthIsCharCount | routes/charater-router.js:13-15 | For a string that matches the name pattern, the length bound is checked against its character count |
| Validation.PatternStringIff | routes/charater-router.js:12-16 | A patterned `Joi.string().min(lo).max(hi)` accepts a string iff it has lo..hi characters, all in the class |
| Validation.Accepts | routes/account-router.js:25-26 | What Joi's `schema.validate` lets through without an error. An accepted string is non-empty and within its `.min`/`.max` JavaScript length, and every character matches the pattern when there is one. An accepted email is a non-empty string that passes the email grammar. An accepted number is a number, whole when `.integer()` is set and positive when `.positive()` is set. An accepted object has no key its schema does not declare, holds every `.required()` key, and each present key's value passes its own rule |
| Validation.MissingRequiredKeyRejects | routes/item-router.js:8-16 | A body that lacks a `.required()` key is refused, whatever its other fields hold |
| Validation.UndeclaredKeyRejects | routes/item-router.js:11-14 | An object with a key its schema does not declare is refused |
| AccountRouter.UserIdRuleIff | routes/account-router.js:12-16 | A `userID` passes iff it has 8 to 20 characters, each a Hangul syllable or ASCII letter or digit |
| AccountRouter.PasswordRuleIff | routes/account-router.js:17 | A password passes iff its JavaScript length is 6 to 20, with no restriction on its characters |
| AccountRouter.CreateAccountSchemaIff | routes/account-router.js:11-19 | The create-account schema accepts a body iff its keys are exactly userID, password and email, and each field passes its own rule |
| AccountRouter.DeleteAccountSchemaIff | routes/account-router.js:51-54 | The delete-account schema accepts a body iff its keys are exactly userID and password, both non-empty strings |
| AccountRouter.CreateAccount | routes/account-router.js:22-48 | Create succeeds iff neither the userID nor the email is taken. Success adds exactly that one account, leaves every other row unchanged, and replies with userID and email only. Otherwise it raises the `P2002` fault and leaves the store unchanged |
| AccountRouter.DeleteAccount | routes/account-router.js:57-102 | Delete succeeds iff the account exists and its stored password equals the given one. Success removes only that userID, keeps every other row, and echoes the deleted account's userID and email. Every failure is the one 400 bad-credentials reply with the store unchanged |
| AccountRouter.DeleteAccountHidesWhichCheckFailed | routes/account-router.js:72-83 | A missing account and a wrong password give the identical response, with status 400, and neither changes the store |
| AccountRouter.AccountRoutesKeepValid | routes/account-router.js:32-88 | Both account handlers keep the unique constraints on userID, email and name |
| AccountRouter.CreateThenDeleteRestores | routes/account-router.js:32-97 | Deleting a just-created account with its password succeeds, echoes the same public fields, and restores the original store |
| AccountRouter.SecondCreateWithTakenKeyFails | routes/account-router.js:32-47 | After a create, a second create with the same userID or the same email raises `P2002`, which reaches the client as 400 with the generic duplicate message, and changes nothing |
| AccountRouter.CreateAccountIgnoresSchema | routes/account-router.js:25-29 | A body the create schema refuses still creates an account, because the handler never reads the validation error |
| CharacterRouter.NameRuleIff | routes/charater-router.js:11-17 | A character name passes iff it has 2 to 10 characters, each a Hangul syllable or ASCII letter or digit |
| CharacterRouter.CreateCharacterSchemaIff | routes/charater-router.js:11-17 | The create-character schema accepts a body iff its only key is `name` and the name passes |
| CharacterRouter.DeleteCharacterSchemaIff | routes/charater-router.js:69-72 | The delete-character schema accepts a body iff its keys are exactly password and name, both non-empty strings |
| CharacterRouter.CharacterSchemasRefuseEveryRequest | routes/charater-router.js:11-27 | Neither character schema declares the `userID` the handlers read from the body, so each refuses every request body that carries `userID`, which every modelled request does |
| CharacterRouter.CreateCharacter | routes/charater-router.js:20-66 | A missing owner account gives 400 `존재하지 않는 계정입니다.` and no row. A taken name raises `P2002` with the store unchanged. Otherwise it adds exactly one character with health 100, power 100, money 0 and no items, and the reply omits userID |
| CharacterRouter.DeleteCharacter | routes/charater-router.js:74-135 | Delete succeeds iff the character exists, the requester's account exists with the given password, and the character's userID is the requester's. Success removes only that name and replies `캐릭터 삭제를 성공했습니다.` with its stats. When the character exists but the requester's account does not, reading its password throws, and the handler raises a fault that the middleware does not recognise. Every failure leaves the store unchanged |
| CharacterRouter.ReadCharacter | routes/charater-router.js:138-175 | Read never changes the store. An absent name gives 400 `캐릭터를 찾을 수 없습니다.`. A present one returns its health, power, money, inventory and equipped items |
| CharacterRouter.DeleteCharacterCheckOrder | routes/charater-router.js:84-114 | The delete checks fire in a fixed order. A missing character gives 400. Next, a missing requester account gives 500. Next, a wrong password gives 400 `비밀번호가 틀렸습니다.`. Last, an ownership mismatch gives 400 `계정 정보가 일치하지 않습니다.` |
| CharacterRouter.DeleteOthersCharacterIsOwnershipFailure | routes/charater-router.js:99-114 | Correct own password but someone else's character gives the ownership reply and deletes nothing |
| CharacterRouter.DeleteCharacterOnlyByOwner | routes/charater-router.js:99-119 | A successful delete was asked for with the owning account's own password |
| CharacterRouter.CharacterRoutesKeepValid | routes/charater-router.js:42-150 | Create and delete keep the store's unique constraints, and read leaves the store as it was |
| CharacterRouter.CreateThenRead | routes/charater-router.js:42-170 | A newly created character reads back with health 100, power 100, money 0 and no inventory or equipped items |
| CharacterRouter.CreateThenDeleteRestores | routes/charater-router.js:42-119 | Deleting a just-created character as its owner succeeds, reports the same stats, and restores the original store |
| CharacterRouter.SecondCreateWithSameNameFails | routes/charater-router.js:42-65 | A second create with a taken name gets the generic duplicate reply, so exactly one row has that name |
| ErrorHandler.ClassOf | middlewares/error-handler.middleware.js:6-23 | The case chosen is the first of ValidationError, code P2002 and type entity.parse.failed that holds, else unclassified |
| ErrorHandler.Classify | middlewares/error-handler.middleware.js:6-23 | The classifier is total and answers 400 or 500. It answers 500 iff none of the three tests holds, and gives each case's fixed message |
| ErrorHandler.ReplyIdentifiesClass | middlewares/error-handler.middleware.js:6-23 | Two faults get the same reply iff they fall in the same case, so the four replies are pairwise distinct |
| ErrorHandler.ValidationErrorTakesPrecedence | middlewares/error-handler.middleware.js:6-8 | A ValidationError gets 400 `규격에 맞는 값을 넣어주세요.` whatever its code and type |
| ErrorHandler.DuplicateReplyIsGeneric | middlewares/error-handler.middleware.js:11-15 | Every non-validation P2002 fault gets the same single 400 duplicate reply, with no per-constraint distinction |
| Storage.InsertAccount | routes/account-router.js:32-34 | The insert is refused with `P2002` iff the userID or email is taken. Otherwise it adds exactly that account and nothing else changes |
| Storage.InsertCharacter | routes/charater-router.js:42-50 | The insert is refused with `P2002` iff the name is taken. Otherwise it adds exactly that character and nothing else changes |
| Storage.InsertAccountKeepsValid | routes/account-router.js:32-34 | A successful account insert keeps every unique constraint |
| Storage.InsertCharacterKeepsValid | routes/charater-router.js:42-50 | A successful character insert keeps every unique constraint |
| Outcomes.Respond | middlewares/error-handler.middleware.js:6-23 | Only a handler's success reaches the client as a success, with status 200 and the handler's message and payload. An early return keeps its own status. A fault passed to `next(err)` is answered 400 or 500, and 500 exactly when the middleware recognises none of its three kinds |
| ItemRouter.PositiveIntegerRuleIff | routes/item-router.js:9 | `code` (and `price`) pass iff they are whole JSON numbers ≥ 1 |
| ItemRouter.ItemNameRuleIff | routes/item-router.js:10 | An item name passes iff it is a string of JavaScript length 1 to 20, with any characters |
| ItemRouter.StatsRuleIff | routes/item-router.js:11-14 | `stats` passes iff it is an object whose keys are among health and power, each holding a whole number; either key may be absent |
| ItemRouter.CreateItemSchemaIff | routes/item-router.js:8-16 | The item schema accepts a body iff its keys are exactly code, name, stats and price and all four field predicates hold, so any missing field refuses it |
| Routes.Handle | middlewares/error-handler.middleware.js:23 | Every route answers 200, 400 or 500. It answers 500 iff it is a character delete of an existing character by a requester with no account. Every non-200 answer leaves the store unchanged |
| Routes.DuplicateReplyOnlyFromTakenKeys | middlewares/error-handler.middleware.js:11-15 | Across all routes, the duplicate reply appears exactly when an account create hits a taken userID or email, or a character create for an existing account hits a taken name |

## Left out

- Express routing, middleware wiring, the async machinery, `console.error` logging, and app start-up (app.js). These are plumbing and I/O.
- The JSON body parser. Its `entity.parse.failed` fault is classified, but parsing is not modelled.
- Prisma and the database schema: faults other than `P2002` (a missing row on delete, foreign keys, referential actions on account deletion) are not modelled, and uniqueness under concurrent requests is left to the database.
- Account deletion does not touch the account's characters. The database's referential action for that relation is not part of this model.
- Request bodies whose fields are absent or not strings, in the handlers. Handler requests are records of strings, so Prisma's own argument checks on `undefined` fields are not modelled. The schemas do see arbitrary JSON.
- Key lookups and unique constraints compare strings exactly. A MySQL database with a case-insensitive default collation could match `ABCDEFGH` to the row `abcdefgh`, while the handlers' own `!==` checks stay exact. The database collation is not part of this model.
- Strings containing lone UTF-16 surrogates, which a JSON escape such as `"\uD800"` can produce. A Dafny `char` is a Unicode scalar value, so such strings cannot be represented.
- Joi's `.email()` grammar. It is the parameter `isEmail` of `Validation.Accepts`.
- Joi's type conversion (numeric strings to numbers) and its safe-integer range. JSON numbers are exact reals.
- The debug fields echoed in the wrong-password response of character deletion.
- The contents of the inventory and equipped relations. They are opaque `ItemRef` sequences.
- Item create, read, update and delete handlers. The item router defines only the create schema.

=== FILE: account_router.dfy ===
/**
 The account routes: `POST /account` creates an account and `DELETE /account`
 deletes one after checking its password.

 Both handlers run their Joi schema but never look at the error it reports, so
 they proceed on whatever body arrived; the schemas are therefore modelled as
 predicates beside the handlers, not as guards inside them.
 */
module AccountRouter {
  import opened Wrappers
  import opened Json
  import opened Validation
  import opened ErrorHandler
  import opened Storage
  import opened Outcomes

  // ---------------------------------------------------------------------------
  // Schemas
  // ---------------------------------------------------------------------------

  const UserIdRule := Str(8, Some(20), true)
  const PasswordRule := Str(6, Some(20), false)

  const CreateAccountSchema := Obj([
    Key("userID", UserIdRule, true),
    Key("password", PasswordRule, true),
    Key("email", Email, true)
  ])

  const DeleteAccountSchema := Obj([
    Key("userID", Str(0, None, false), true),
    Key("password", Str(0, None, false), true)
  ])

  /** A `userID` passes the create schema iff it has 8 to 20 characters, each a
      Hangul syllable or an ASCII letter or digit. */
  lemma UserIdRuleIff(s: string, isEmail: string -> bool)
    ensures Accepts(UserIdRule, JString(s), isEmail)
        <==> 8 <= |s| <= 20 && forall i :: 0 <= i < |s| ==> IsNameChar(s[i])
  {
    PatternStringIff(s, 8, 20, isEmail);
  }

  /** A password passes iff its JavaScript length is 6 to 20; any character is allowed. */
  lemma PasswordRuleIff(s: string, isEmail: string -> bool)
    ensures Accepts(PasswordRule, JString(s), isEmail) <==> 6 <= Utf16Length(s) <= 20
  {
  }

  /** The create schema accepts a body iff its keys are exactly `userID`, `password` and
      `email` and each field passes its own rule. */
  lemma CreateAccountSchemaIff(body: map<string, JsonValue>, isEmail: string -> bool)
    ensures Accepts(CreateAccountSchema, JObject(body), isEmail)
        <==> && body.Keys == {"userID", "password", "email"}
             && Accepts(UserIdRule, body["userID"], isEmail)
             && Accepts(PasswordRule, body["password"], isEmail)
             && body["email"].JString? && body["email"].s != [] && isEmail(body["email"].s)
  {
    var keys := CreateAccountSchema.keys;
    assert KeyNames(keys) == {"userID", "password", "email"} by {
      assert keys[0].name == "userID" && keys[1].name == "password" && keys[2].name == "email";
    }
    if Accepts(CreateAccountSchema, JObject(body), isEmail) {
      assert keys[0].required && keys[1].required && keys[2].required;
    }
  }

  /** The delete schema accepts a body iff it holds exactly `userID` and `password`,
      both non-empty strings. */
  lemma DeleteAccountSchemaIff(body: map<string, JsonValue>, isEmail: string -> bool)
    ensures Accepts(DeleteAccountSchema, JObject(body), isEmail)
        <==> && body.Keys == {"userID", "password"}
             && body["userID"].JString? && body["userID"].s != []
             && body["password"].JString? && body["password"].s != []
  {
    var keys := DeleteAccountSchema.keys;
    assert KeyNames(keys) == {"userID", "password"} by {
      assert keys[0].name == "userID" && keys[1].name == "password";
    }
    if Accepts(DeleteAccountSchema, JObject(body), isEmail) {
      assert keys[0].required && keys[1].required;
    }
  }

  // ---------------------------------------------------------------------------
  // POST /account
  // ---------------------------------------------------------------------------

  datatype CreateAccountRequest = CreateAccountRequest(userID: string, password: string, email: string)
  {
    function Body(): map<string, JsonValue> {
      map["userID" := JString(userID), "password" := JString(password), "email" := JString(email)]
    }
  }

  const AccountCreatedMessage := "계정 생성을 성공했습니다."

  /** Insert the account; a taken `userID` or `email` makes the database raise `P2002`,
      which is forwarded to the error middleware. The reply shows `userID` and `email` only. */
  function CreateAccount(s: Store, req: CreateAccountRequest): (r: Step)
    ensures r.outcome.Ok? <==> req.userID !in s.accounts && !s.EmailTaken(req.email)
    ensures r.outcome.Ok? ==>
      && r.outcome == Ok(AccountCreatedMessage, AccountView(req.userID, req.email))
      && r.store.accounts.Keys == s.accounts.Keys + {req.userID}
      && r.store.accounts[req.userID] == Account(req.userID, req.password, req.email)
      && (forall u :: u in s.accounts ==> r.store.accounts[u] == s.accounts[u])
      && r.store.characters == s.characters
    ensures !r.outcome.Ok? ==> r.outcome == Raise(UniqueViolation) && r.store == s
  {
    match InsertAccount(s, Account(req.userID, req.password, req.email))
    case Failure(fault) => Step(Raise(fault), s)
    case Success(s') => Step(Ok(AccountCreatedMessage, AccountView(req.userID, req.email)), s')
  }

  // ---------------------------------------------------------------------------
  // DELETE /account
  // ---------------------------------------------------------------------------

  datatype DeleteAccountRequest = DeleteAccountRequest(userID: string, password: string)
  {
    function Body(): map<string, JsonValue> {
      map["userID" := JString(userID), "password" := JString(password)]
    }
  }

  /** One message for "no such account" and for "wrong password", so a caller cannot
      tell which of the two failed. */
  const BadCredentialsMessage := "존재하지 않는 계정이거나 비밀번호가 일치하지 않습니다."
  const AccountDeletedMessage := "계정 삭제를 성공했습니다."

  /** Look the account up, compare the stored password with the given one, and delete it;
      the deleted account's public fields are echoed back. */
  function DeleteAccount(s: Store, req: DeleteAccountRequest): (r: Step)
    ensures r.outcome.Ok? <==> req.userID in s.accounts && s.accounts[req.userID].password == req.password
    ensures r.outcome.Ok? ==>
      && r.outcome == Ok(AccountDeletedMessage,
                         AccountView(s.accounts[req.userID].userID, s.accounts[req.userID].email))
      && r.store.accounts.Keys == s.accounts.Keys - {req.userID}
      && (forall u :: u in r.store.accounts ==> r.store.accounts[u] == s.accounts[u])
      && r.store.characters == s.characters
    ensures !r.outcome.Ok? ==> r == Step(Reply(BadRequest(BadCredentialsMessage)), s)
  {
    if req.userID !in s.accounts then
      Step(Reply(BadRequest(BadCredentialsMessage)), s)
    else
      var account := s.accounts[req.userID];
      if account.password != req.password then
        Step(Reply(BadRequest(BadCredentialsMessage)), s)
      else
        Step(Ok(AccountDeletedMessage, AccountView(account.userID, account.email)),
             s.(accounts := s.accounts - {req.userID}))
  }

  // ---------------------------------------------------------------------------
  // Properties across requests
  // ---------------------------------------------------------------------------

  /** A missing account and a wrong password are indistinguishable to the client:
      both get the same status and message, and neither changes the store. */
  lemma DeleteAccountHidesWhichCheckFailed(s: Store, absent: DeleteAccountRequest, wrong: DeleteAccountRequest)
    requires absent.userID !in s.accounts
    requires wrong.userID in s.accounts && s.accounts[wrong.userID].password != wrong.password
    ensures Respond(DeleteAccount(s, absent).outcome) == Respond(DeleteAccount(s, wrong).outcome)
    ensures Respond(DeleteAccount(s, absent).outcome).Status() == 400
    ensures DeleteAccount(s, absent).store == s && DeleteAccount(s, wrong).store == s
  {
  }

  /** Both handlers keep the store's unique constraints. */
  lemma AccountRoutesKeepValid(s: Store, c: CreateAccountRequest, d: DeleteAccountRequest)
    requires s.Valid()
    ensures CreateAccount(s, c).store.Valid()
    ensures DeleteAccount(s, d).store.Valid()
  {
  }

  /** Deleting an account just created, with the password it was created with,
      succeeds, echoes the same public fields and gives back the original store. */
  lemma CreateThenDeleteRestores(s: Store, req: CreateAccountRequest)
    requires req.userID !in s.accounts && !s.EmailTaken(req.email)
    ensures var created := CreateAccount(s, req);
            var deleted := DeleteAccount(created.store, DeleteAccountRequest(req.userID, req.password));
            && deleted.outcome.Ok?
            && deleted.outcome.payload == created.outcome.payload
            && deleted.store == s
  {
  }

  /** After one create, a second create with the same `userID` or the same `email` is
      refused with the duplicate reply and leaves the store as the first create left it. */
  lemma SecondCreateWithTakenKeyFails(s: Store, first: CreateAccountRequest, second: CreateAccountRequest)
    requires CreateAccount(s, first).outcome.Ok?
    requires second.userID == first.userID || second.email == first.email
    ensures var after := CreateAccount(s, first).store;
            && CreateAccount(after, second) == Step(Raise(UniqueViolation), after)
            && Respond(CreateAccount(after, second).outcome) == Failed(ErrorReply(400, DuplicateMessage))
  {
  }

  /** The handler does not enforce its schema: a body the schema refuses (a one-character
      `userID`) still creates an account in an empty store. */
  lemma CreateAccountIgnoresSchema(isEmail: string -> bool)
    ensures var req := CreateAccountRequest("a", "pw", "a@b.c");
            && !Accepts(CreateAccountSchema, JObject(req.Body()), isEmail)
            && CreateAccount(EmptyStore, req).outcome.Ok?
  {
    var req := CreateAccountRequest("a", "pw", "a@b.c");
    assert !Accepts(UserIdRule, JString("a"), isEmail);
    CreateAccountSchemaIff(req.Body(), isEmail);
  }
}

=== FILE: character_router.dfy ===
/**
 The character routes: `POST /character` creates a character for an existing
 account, `DELETE /character` deletes one after three ordered checks, and
 `GET /character/:name` shows one with its inventory and equipped items.

 As with the account routes, the Joi schemas are run and their errors ignored.
 */
module CharacterRouter {
  import opened Wrappers
  import opened Json
  import opened Validation
  import opened ErrorHandler
  import opened Storage
  import opened Outcomes

  // ---------------------------------------------------------------------------
  // Schemas
  // ---------------------------------------------------------------------------

  const NameRule := Str(2, Some(10), true)

  /** Declares `name` only, although the handler also reads `userID` from the body. */
  const CreateCharacterSchema := Obj([Key("name", NameRule, true)])

  /** Declares `password` and `name` only, although the handler also reads `userID`. */
  const DeleteCharacterSchema := Obj([
    Key("password", Str(0, None, false), true),
    Key("name", Str(0, None, false), true)
  ])

  /** A character name passes iff it has 2 to 10 characters, each a Hangul syllable
      or an ASCII letter or digit. */
  lemma NameRuleIff(s: string, isEmail: string -> bool)
    ensures Accepts(NameRule, JString(s), isEmail)
        <==> 2 <= |s| <= 10 && forall i :: 0 <= i < |s| ==> IsNameChar(s[i])
  {
    PatternStringIff(s, 2, 10, isEmail);
  }

  /** The create schema accepts a body iff its only key is `name` and the name passes. */
  lemma CreateCharacterSchemaIff(body: map<string, JsonValue>, isEmail: string -> bool)
    ensures Accepts(CreateCharacterSchema, JObject(body), isEmail)
        <==> body.Keys == {"name"} && Accepts(NameRule, body["name"], isEmail)
  {
    var keys := CreateCharacterSchema.keys;
    assert KeyNames(keys) == {"name"} by { assert keys[0].name == "name"; }
    if Accepts(CreateCharacterSchema, JObject(body), isEmail) {
      assert keys[0].required;
    }
  }

  /** The delete schema accepts a body iff it holds exactly `password` and `name`,
      both non-empty strings. */
  lemma DeleteCharacterSchemaIff(body: map<string, JsonValue>, isEmail: string -> bool)
    ensures Accepts(DeleteCharacterSchema, JObject(body), isEmail)
        <==> && body.Keys == {"password", "name"}
             && body["password"].JString? && body["password"].s != []
             && body["name"].JString? && body["name"].s != []
  {
    var keys := DeleteCharacterSchema.keys;
    assert KeyNames(keys) == {"password", "name"} by {
      assert keys[0].name == "password" && keys[1].name == "name";
    }
    if Accepts(DeleteCharacterSchema, JObject(body), isEmail) {
      assert keys[0].required && keys[1].required;
    }
  }

  // ---------------------------------------------------------------------------
  // POST /character
  // ---------------------------------------------------------------------------

  datatype CreateCharacterRequest = CreateCharacterRequest(userID: string, name: string)
  {
    function Body(): map<string, JsonValue> {
      map["userID" := JString(userID), "name" := JString(name)]
    }
  }

  const StartingHealth := 100
  const StartingPower := 100
  const StartingMoney := 0

  const NoSuchAccountMessage := "존재하지 않는 계정입니다."
  const CharacterCreatedMessage := "캐릭터 생성을 성공했습니다."

  /** Look the owner up, then insert the character with the starting stats and no items;
      a taken name makes the database raise `P2002`. The reply leaves out `userID`. */
  function CreateCharacter(s: Store, req: CreateCharacterRequest): (r: Step)
    ensures req.userID !in s.accounts ==> r == Step(Reply(BadRequest(NoSuchAccountMessage)), s)
    ensures req.userID in s.accounts && req.name in s.characters ==> r == Step(Raise(UniqueViolation), s)
    ensures r.outcome.Ok? <==> req.userID in s.accounts && req.name !in s.characters
    ensures r.outcome.Ok? ==>
      && r.outcome == Ok(CharacterCreatedMessage,
                         CharacterSummary(req.name, StartingHealth, StartingPower, StartingMoney))
      && r.store.characters.Keys == s.characters.Keys + {req.name}
      && r.store.characters[req.name]
           == Character(req.name, req.userID, StartingHealth, StartingPower, StartingMoney, [], [])
      && (forall n :: n in s.characters ==> r.store.characters[n] == s.characters[n])
      && r.store.accounts == s.accounts
  {
    if req.userID !in s.accounts then
      Step(Reply(BadRequest(NoSuchAccountMessage)), s)
    else
      var newCharacter := Character(req.name, req.userID, StartingHealth, StartingPower, StartingMoney, [], []);
      match InsertCharacter(s, newCharacter)
      case Failure(fault) => Step(Raise(fault), s)
      case Success(s') =>
        Step(Ok(CharacterCreatedMessage, CharacterSummary(newCharacter.name, newCharacter.health, newCharacter.power, newCharacter.money)), s')
  }

  // ---------------------------------------------------------------------------
  // DELETE /character
  // ---------------------------------------------------------------------------

  datatype DeleteCharacterRequest = DeleteCharacterRequest(userID: string, password: string, name: string)
  {
    function Body(): map<string, JsonValue> {
      map["userID" := JString(userID), "password" := JString(password), "name" := JString(name)]
    }
  }

  const CharacterToDeleteNotFoundMessage := "삭제하려는 캐릭터를 찾을 수 없습니다."
  const WrongPasswordMessage := "비밀번호가 틀렸습니다."
  const OwnerMismatchMessage := "계정 정보가 일치하지 않습니다."
  const CharacterDeletedMessage := "캐릭터 삭제를 성공했습니다."

  /** Reading `password` of the missing account (`account` is `null`) throws a `TypeError`,
      which carries neither a Prisma code nor a body-parser type. */
  const NullDereference := Fault(Some("TypeError"), None, None)

  /** The requester's password check runs before the ownership check, and reads the
      password of the requester's account without first checking that it exists. */
  function DeleteCharacter(s: Store, req: DeleteCharacterRequest): (r: Step)
    ensures r.outcome.Ok? <==>
      && req.name in s.characters
      && req.userID in s.accounts
      && s.accounts[req.userID].password == req.password
      && s.characters[req.name].userID == req.userID
    ensures req.name in s.characters && req.userID !in s.accounts ==>
      r.outcome.Raise? && ClassOf(r.outcome.fault) == Unclassified
    ensures !r.outcome.Ok? ==> r.store == s
    ensures r.outcome.Ok? ==>
      && r.outcome == Ok(CharacterDeletedMessage, Summary(s.characters[req.name]))
      && r.store.characters.Keys == s.characters.Keys - {req.name}
      && (forall n :: n in r.store.characters ==> r.store.characters[n] == s.characters[n])
      && r.store.accounts == s.accounts
  {
    if req.name !in s.characters then
      Step(Reply(BadRequest(CharacterToDeleteNotFoundMessage)), s)
    else
      var character := s.characters[req.name];
      if req.userID !in s.accounts then
        Step(Raise(NullDereference), s)
      else if s.accounts[req.userID].password != req.password then
        Step(Reply(BadRequest(WrongPasswordMessage)), s)
      else if character.userID != req.userID then
        Step(Reply(BadRequest(OwnerMismatchMessage)), s)
      else
        // The row was found by `name`, so deleting by `character.name` deletes `name`.
        Step(Ok(CharacterDeletedMessage, Summary(character)),
             s.(characters := s.characters - {req.name}))
  }

  function Summary(c: Character): Payload {
    CharacterSummary(c.name, c.health, c.power, c.money)
  }

  // ---------------------------------------------------------------------------
  // GET /character/:name
  // ---------------------------------------------------------------------------

  const CharacterNotFoundMessage := "캐릭터를 찾을 수 없습니다."
  const CharacterShownMessage := "캐릭터 조회 성공"

  /** Look a character up by name, with its inventory and equipped relations. */
  function ReadCharacter(s: Store, name: string): (r: Step)
    ensures r.store == s
    ensures name !in s.characters <==> r.outcome == Reply(BadRequest(CharacterNotFoundMessage))
    ensures name in s.characters ==>
      var c := s.characters[name];
      r.outcome == Ok(CharacterShownMessage,
                      CharacterDetail(c.name, c.health, c.power, c.money, c.inventory, c.equipped))
  {
    if name !in s.characters then
      Step(Reply(BadRequest(CharacterNotFoundMessage)), s)
    else
      var c := s.characters[name];
      Step(Ok(CharacterShownMessage, CharacterDetail(c.name, c.health, c.power, c.money, c.inventory, c.equipped)), s)
  }

  // ---------------------------------------------------------------------------
  // Properties across requests
  // ---------------------------------------------------------------------------

  /** The delete checks fire in a fixed order: a missing character is reported first, then a
      missing requester account (an unclassified fault, answered 500), then a wrong password,
      and only then a character owned by someone else. */
  lemma DeleteCharacterCheckOrder(s: Store, req: DeleteCharacterRequest)
    ensures req.name !in s.characters ==>
      Respond(DeleteCharacter(s, req).outcome) == Failed(ErrorReply(400, CharacterToDeleteNotFoundMessage))
    ensures req.name in s.characters && req.userID !in s.accounts ==>
      Respond(DeleteCharacter(s, req).outcome) == Failed(ErrorReply(500, ServerErrorMessage))
    ensures req.name in s.characters && req.userID in s.accounts
            && s.accounts[req.userID].password != req.password ==>
      Respond(DeleteCharacter(s, req).outcome) == Failed(ErrorReply(400, WrongPasswordMessage))
    ensures req.name in s.characters && req.userID in s.accounts
            && s.accounts[req.userID].password == req.password
            && s.characters[req.name].userID != req.userID ==>
      Respond(DeleteCharacter(s, req).outcome) == Failed(ErrorReply(400, OwnerMismatchMessage))
  {
  }

  /** Someone who knows their own password but does not own the character gets the
      ownership message, not the password message, and nothing is deleted. */
  lemma DeleteOthersCharacterIsOwnershipFailure(s: Store, req: DeleteCharacterRequest)
    requires req.name in s.characters && req.userID in s.accounts
    requires s.accounts[req.userID].password == req.password
    requires s.characters[req.name].userID != req.userID
    ensures DeleteCharacter(s, req) == Step(Reply(BadRequest(OwnerMismatchMessage)), s)
  {
  }

  /** A successful delete was asked for by the owner, who gave the owner's own password. */
  lemma DeleteCharacterOnlyByOwner(s: Store, req: DeleteCharacterRequest)
    requires DeleteCharacter(s, req).outcome.Ok?
    ensures var c := s.characters[req.name];
            c.userID in s.accounts && s.accounts[c.userID].password == req.password
  {
  }

  /** The character routes keep the store's unique constraints; reading changes nothing. */
  lemma CharacterRoutesKeepValid(s: Store, c: CreateCharacterRequest, d: DeleteCharacterRequest, name: string)
    requires s.Valid()
    ensures CreateCharacter(s, c).store.Valid()
    ensures DeleteCharacter(s, d).store.Valid()
    ensures ReadCharacter(s, name).store == s
  {
  }

  /** A newly created character reads back with the starting stats and no items. */
  lemma CreateThenRead(s: Store, req: CreateCharacterRequest)
    requires CreateCharacter(s, req).outcome.Ok?
    ensures ReadCharacter(CreateCharacter(s, req).store, req.name).outcome
         == Ok(CharacterShownMessage,
               CharacterDetail(req.name, StartingHealth, StartingPower, StartingMoney, [], []))
  {
  }

  /** Deleting a character just created, as its owner with the owner's password,
      succeeds, reports the same summary and gives back the original store. */
  lemma CreateThenDeleteRestores(s: Store, req: CreateCharacterRequest)
    requires req.userID in s.accounts && req.name !in s.characters
    ensures var created := CreateCharacter(s, req);
            var del := DeleteCharacterRequest(req.userID, s.accounts[req.userID].password, req.name);
            var deleted := DeleteCharacter(created.store, del);
            && deleted.outcome.Ok?
            && deleted.outcome.payload == created.outcome.payload
            && deleted.store == s
  {
  }

  /** Two creates with one name leave exactly one character of that name: the second is
      refused with the generic duplicate reply and changes nothing. */
  lemma SecondCreateWithSameNameFails(s: Store, first: CreateCharacterRequest, second: CreateCharacterRequest)
    requires CreateCharacter(s, first).outcome.Ok?
    requires second.name == first.name && second.userID in s.accounts
    ensures var after := CreateCharacter(s, first).store;
            && CreateCharacter(after, second) == Step(Raise(UniqueViolation), after)
            && Respond(CreateCharacter(after, second).outcome) == Failed(ErrorReply(400, DuplicateMessage))
  {
  }

  /** Neither character schema declares `userID`, which every request body carries, so both
      refuse every body the handlers are sent; the handlers go on regardless. */
  lemma CharacterSchemasRefuseEveryRequest(c: CreateCharacterRequest, d: DeleteCharacterRequest, isEmail: string -> bool)
    ensures !Accepts(CreateCharacterSchema, JObject(c.Body()), isEmail)
    ensures !Accepts(DeleteCharacterSchema, JObject(d.Body()), isEmail)
  {
    UndeclaredKeyRejects(CreateCharacterSchema.keys, c.Body(), "userID", isEmail);
    UndeclaredKeyRejects(DeleteCharacterSchema.keys, d.Body(), "userID", isEmail);
  }
}

=== FILE: error_handler.dfy ===
/**
 The error-handling middleware: every fault a route handler forwards with
 `next(err)` is turned into an HTTP status and an `errorMessage`.
 */
module ErrorHandler {
  import opened Wrappers

  /** The three properties of a thrown value the middleware inspects:
      `err.name`, `err.code` and `err.type`. `None` stands for `undefined`. */
  datatype Fault = Fault(name: Option<string>, code: Option<string>, kind: Option<string>)

  /** The failure envelope `{ errorMessage }` with its HTTP status. */
  datatype ErrorReply = ErrorReply(status: int, errorMessage: string)

  const ValidationMessage := "규격에 맞는 값을 넣어주세요."
  const DuplicateMessage := "이미 등록되어 있는 정보입니다."
  const MalformedJsonMessage := "잘못된 JSON 데이터입니다."
  const ServerErrorMessage := "서버에서 에러가 발생했습니다."

  /** A Joi validation error. */
  predicate IsValidationError(f: Fault) {
    f.name == Some("ValidationError")
  }

  /** A Prisma unique-constraint violation. */
  predicate IsUniqueViolation(f: Fault) {
    f.code == Some("P2002")
  }

  /** A request body the JSON body parser could not parse. */
  predicate IsParseFailure(f: Fault) {
    f.kind == Some("entity.parse.failed")
  }

  /** The classification of a fault, as a closed set of cases. */
  datatype FaultClass = ValidationFailed | Duplicate | MalformedJson | Unclassified

  /** The case that the middleware's tests pick, tried in their source order. */
  function ClassOf(f: Fault): (c: FaultClass)
    ensures c == ValidationFailed <==> IsValidationError(f)
    ensures c == Duplicate <==> !IsValidationError(f) && IsUniqueViolation(f)
    ensures c == MalformedJson <==> !IsValidationError(f) && !IsUniqueViolation(f) && IsParseFailure(f)
  {
    if IsValidationError(f) then ValidationFailed
    else if IsUniqueViolation(f) then Duplicate
    else if IsParseFailure(f) then MalformedJson
    else Unclassified
  }

  /** The middleware: a total first-match mapping from a fault to its reply. */
  function Classify(f: Fault): (r: ErrorReply)
    ensures r.status == 400 || r.status == 500
    ensures r.status == 500 <==> !IsValidationError(f) && !IsUniqueViolation(f) && !IsParseFailure(f)
    ensures IsValidationError(f) ==> r.errorMessage == ValidationMessage
    ensures !IsValidationError(f) && IsUniqueViolation(f) ==> r.errorMessage == DuplicateMessage
    ensures !IsValidationError(f) && !IsUniqueViolation(f) && IsParseFailure(f) ==> r.errorMessage == MalformedJsonMessage
    ensures r.status == 500 ==> r.errorMessage == ServerErrorMessage
  {
    if IsValidationError(f) then ErrorReply(400, ValidationMessage)
    else if IsUniqueViolation(f) then ErrorReply(400, DuplicateMessage)
    else if IsParseFailure(f) then ErrorReply(400, MalformedJsonMessage)
    else ErrorReply(500, ServerErrorMessage)
  }

  /** The four replies are pairwise different, so a reply tells exactly which case fired:
      two faults get the same reply iff they fall in the same case. */
  lemma ReplyIdentifiesClass(f: Fault, g: Fault)
    ensures Classify(f) == Classify(g) <==> ClassOf(f) == ClassOf(g)
  {
  }

  /** A `ValidationError` is answered the same way whatever its code and type. */
  lemma ValidationErrorTakesPrecedence(code: Option<string>, kind: Option<string>)
    ensures Classify(Fault(Some("ValidationError"), code, kind)) == ErrorReply(400, ValidationMessage)
  {
  }

  /** Every `P2002` fault that is not a validation error gets the one generic duplicate reply:
      nothing else about the fault, in particular which constraint fired, changes it. */
  lemma DuplicateReplyIsGeneric(f: Fault, g: Fault)
    requires IsUniqueViolation(f) && IsUniqueViolation(g)
    requires !IsValidationError(f) && !IsValidationError(g)
    ensures Classify(f) == Classify(g) == ErrorReply(400, DuplicateMessage)
  {
  }
}

=== FILE: item_router.dfy ===
/**
 The item router's create schema. The router declares no handlers, so the
 schema is all there is to model.
 */
module ItemRouter {
  import opened Wrappers
  import opened Json
  import opened Validation

  const PositiveIntegerRule := Num(true, true)
  const ItemNameRule := Str(1, Some(20), false)
  const StatRule := Num(true, false)
  const StatsRule := Obj([Key("health", StatRule, false), Key("power", StatRule, false)])

  const CreateItemSchema := Obj([
    Key("code", PositiveIntegerRule, true),
    Key("name", ItemNameRule, true),
    Key("stats", StatsRule, true),
    Key("price", PositiveIntegerRule, true)
  ])

  /** A whole positive number: what `code` and `price` must be. */
  predicate IsPositiveWholeNumber(v: JsonValue) {
    v.JNumber? && v.n >= 1.0 && IsIntegral(v.n)
  }

  /** An item name is any string of JavaScript length 1 to 20, with no restriction on its characters. */
  predicate IsItemName(v: JsonValue) {
    v.JString? && 1 <= Utf16Length(v.s) <= 20
  }

  /** A stat block: an object whose every key is `health` or `power` and holds a whole number;
      either key may be absent. */
  predicate IsStatBlock(v: JsonValue) {
    && v.JObject?
    && v.fields.Keys <= {"health", "power"}
    && forall k :: k in v.fields ==> v.fields[k].JNumber? && IsIntegral(v.fields[k].n)
  }

  lemma PositiveIntegerRuleIff(v: JsonValue, isEmail: string -> bool)
    ensures Accepts(PositiveIntegerRule, v, isEmail) <==> IsPositiveWholeNumber(v)
  {
  }

  lemma ItemNameRuleIff(v: JsonValue, isEmail: string -> bool)
    ensures Accepts(ItemNameRule, v, isEmail) <==> IsItemName(v)
  {
  }

  lemma StatsRuleIff(v: JsonValue, isEmail: string -> bool)
    ensures Accepts(StatsRule, v, isEmail) <==> IsStatBlock(v)
  {
    var keys := StatsRule.keys;
    assert KeyNames(keys) == {"health", "power"} by {
      assert keys[0].name == "health" && keys[1].name == "power";
    }
    if Accepts(StatsRule, v, isEmail) {
      forall k | k in v.fields ensures v.fields[k].JNumber? && IsIntegral(v.fields[k].n) {
        var i := if k == "health" then 0 else 1;
        assert keys[i].name == k && keys[i].rule == StatRule;
        assert Accepts(keys[i].rule, v.fields[keys[i].name], isEmail);
      }
    }
    if IsStatBlock(v) {
      assert forall i :: 0 <= i < |keys| && keys[i].name in v.fields ==>
        Accepts(keys[i].rule, v.fields[keys[i].name], isEmail);
    }
  }

  /** The item schema accepts a body iff its keys are exactly `code`, `name`, `stats` and
      `price` and each field is acceptable: leaving out any of the four refuses the body. */
  lemma CreateItemSchemaIff(body: map<string, JsonValue>, isEmail: string -> bool)
    ensures Accepts(CreateItemSchema, JObject(body), isEmail)
        <==> && body.Keys == {"code", "name", "stats", "price"}
             && IsPositiveWholeNumber(body["code"])
             && IsItemName(body["name"])
             && IsStatBlock(body["stats"])
             && IsPositiveWholeNumber(body["price"])
  {
    var keys := CreateItemSchema.keys;
    assert KeyNames(keys) == {"code", "name", "stats", "price"} by {
      assert keys[0].name == "code" && keys[1].name == "name";
      assert keys[2].name == "stats" && keys[3].name == "price";
    }
    if Accepts(CreateItemSchema, JObject(body), isEmail) {
      assert keys[0].required && keys[1].required && keys[2].required && keys[3].required;
      assert body.Keys == {"code", "name", "stats", "price"};
      PositiveIntegerRuleIff(body["code"], isEmail);
      ItemNameRuleIff(body["name"], isEmail);
      StatsRuleIff(body["stats"], isEmail);
      PositiveIntegerRuleIff(body["price"], isEmail);
    } else if "code" in body && "name" in body && "stats" in body && "price" in body {
      PositiveIntegerRuleIff(body["code"], isEmail);
      ItemNameRuleIff(body["name"], isEmail);
      StatsRuleIff(body["stats"], isEmail);
      PositiveIntegerRuleIff(body["price"], isEmail);
    }
  }
}

=== FILE: json.dfy ===
/** Parsed JSON request bodies, as the body parser hands them to the route handlers. */
module Json {

  /** A JSON value. Numbers are exact reals: the model does not follow IEEE-754 doubles. */
  datatype JsonValue =
    | JNull
    | JBool(b: bool)
    | JNumber(n: real)
    | JString(s: string)
    | JArray(elems: seq<JsonValue>)
    | JObject(fields: map<string, JsonValue>)
}

=== FILE: outcomes.dfy ===
/**
 What a route handler produces: a success payload, an early `return` with a
 status and an `errorMessage`, or a fault forwarded to the error middleware
 with `next(err)`; together with the store after the request.
 */
module Outcomes {
  import opened Storage
  import opened ErrorHandler

  /** The public fields a success response carries. None of them is a password. */
  datatype Payload =
    | AccountView(userID: string, email: string)
    | CharacterSummary(name: string, health: int, power: int, money: int)
    | CharacterDetail(name: string, health: int, power: int, money: int,
                      inventory: seq<ItemRef>, equipped: seq<ItemRef>)

  datatype Outcome =
    | Ok(message: string, payload: Payload)
    | Reply(reply: ErrorReply)
    | Raise(fault: Fault)

  /** One handled request: its outcome and the store it leaves behind. */
  datatype Step = Step(outcome: Outcome, store: Store)

  /** The HTTP response the client finally sees. */
  datatype Response =
    | Succeeded(message: string, payload: Payload)
    | Failed(reply: ErrorReply)
  {
    function Status(): int {
      if Succeeded? then 200 else reply.status
    }
  }

  /** Only a handler's success reaches the client as a success, with status 200 and the
      handler's own message and payload; an early return keeps its status; a forwarded fault is answered
      400 or 500, and 500 exactly when the middleware recognises none of its three kinds. */
  function Respond(o: Outcome): (r: Response)
    ensures r.Succeeded? <==> o.Ok?
    ensures r.Succeeded? ==> r.Status() == 200 && r.message == o.message && r.payload == o.payload
    ensures o.Reply? ==> r.Status() == o.reply.status
    ensures o.Raise? ==> r.Status() in {400, 500}
    ensures o.Raise? ==> (r.Status() == 500 <==> ClassOf(o.fault) == Unclassified)
  {
    match o
    case Ok(message, payload) => Succeeded(message, payload)
    case Reply(reply) => Failed(reply)
    case Raise(fault) => Failed(Classify(fault))
  }

  /** The `{ errorMessage }` reply with status 400 that the handlers return early. */
  function BadRequest(message: string): ErrorReply {
    ErrorReply(400, message)
  }
}

=== FILE: routes.dfy ===
/**
 The five route handlers behind the error middleware, seen from the client:
 which HTTP statuses each one can answer with.
 */
module Routes {
  import opened ErrorHandler
  import opened Storage
  import opened Outcomes
  import AccountRouter
  import CharacterRouter

  /** A request to one of the five routes. */
  datatype Request =
    | PostAccount(createAccount: AccountRouter.CreateAccountRequest)
    | DeleteAccount(deleteAccount: AccountRouter.DeleteAccountRequest)
    | PostCharacter(createCharacter: CharacterRouter.CreateCharacterRequest)
    | DeleteCharacter(deleteCharacter: CharacterRouter.DeleteCharacterRequest)
    | GetCharacter(name: string)

  /** Dispatch one request and pass its outcome through the error middleware. */
  function Handle(s: Store, req: Request): (r: (Response, Store))
    ensures r.0.Status() in {200, 400, 500}
    ensures r.0.Status() == 500 <==>
      && req.DeleteCharacter?
      && req.deleteCharacter.name in s.characters
      && req.deleteCharacter.userID !in s.accounts
    ensures r.0.Status() != 200 ==> r.1 == s
  {
    var step := match req
      case PostAccount(c) => AccountRouter.CreateAccount(s, c)
      case DeleteAccount(d) => AccountRouter.DeleteAccount(s, d)
      case PostCharacter(c) => CharacterRouter.CreateCharacter(s, c)
      case DeleteCharacter(d) => CharacterRouter.DeleteCharacter(s, d)
      case GetCharacter(name) => CharacterRouter.ReadCharacter(s, name);
    (Respond(step.outcome), step.store)
  }

  /** The generic duplicate reply is answered exactly when an account create hits a taken
      `userID` or `email`, or a character create for an existing account hits a taken name. */
  lemma DuplicateReplyOnlyFromTakenKeys(s: Store, req: Request)
    ensures var r := Handle(s, req).0;
            r.Failed? && r.reply.errorMessage == DuplicateMessage <==>
              || (req.PostAccount? && (req.createAccount.userID in s.accounts
                                       || s.EmailTaken(req.createAccount.email)))
              || (req.PostCharacter? && req.createCharacter.userID in s.accounts
                  && req.createCharacter.name in s.characters)
  {
  }
}

=== FILE: storage.dfy ===
/**
 The database as the route handlers see it through the Prisma client:
 accounts keyed by `userID` (with `email` also unique) and characters keyed
 by `name`. Inserts enforce the unique constraints the way the database does,
 by raising Prisma's `P2002` fault instead of writing.
 */
module Storage {
  import opened Wrappers
  import opened ErrorHandler

  datatype Account = Account(userID: string, password: string, email: string)

  /** A row of a character's inventory or equipped relation; its contents are not modelled. */
  datatype ItemRef = ItemRef(itemCode: int)

  datatype Character = Character(
    name: string,
    userID: string,
    health: int,
    power: int,
    money: int,
    inventory: seq<ItemRef>,
    equipped: seq<ItemRef>)

  datatype Store = Store(accounts: map<string, Account>, characters: map<string, Character>)
  {
    /** Some stored account already uses `email`. */
    predicate EmailTaken(email: string) {
      exists u :: u in accounts && accounts[u].email == email
    }

    /** Every row is filed under its own key and no two accounts share an email:
        the unique constraints of the `userID`, `email` and `name` columns. */
    ghost predicate Valid() {
      && (forall u :: u in accounts ==> accounts[u].userID == u)
      && (forall u, v :: u in accounts && v in accounts && accounts[u].email == accounts[v].email ==> u == v)
      && (forall n :: n in characters ==> characters[n].name == n)
    }
  }

  const EmptyStore := Store(map[], map[])

  /** What Prisma throws for a unique-constraint violation. */
  const UniqueViolation := Fault(Some("PrismaClientKnownRequestError"), Some("P2002"), None)

  /** `prisma.account.create`: refused with `P2002` when the `userID` or the `email` is taken. */
  function InsertAccount(s: Store, a: Account): (r: Result<Store, Fault>)
    ensures r.Failure? <==> a.userID in s.accounts || s.EmailTaken(a.email)
    ensures r.Failure? ==> r.error == UniqueViolation
    ensures r.Success? ==>
      && r.value.accounts.Keys == s.accounts.Keys + {a.userID}
      && r.value.accounts[a.userID] == a
      && (forall u :: u in s.accounts ==> r.value.accounts[u] == s.accounts[u])
      && r.value.characters == s.characters
  {
    if a.userID in s.accounts || s.EmailTaken(a.email) then Failure(UniqueViolation)
    else Success(s.(accounts := s.accounts[a.userID := a]))
  }

  /** `prisma.character.create`: refused with `P2002` when the `name` is taken. */
  function InsertCharacter(s: Store, c: Character): (r: Result<Store, Fault>)
    ensures r.Failure? <==> c.name in s.characters
    ensures r.Failure? ==> r.error == UniqueViolation
    ensures r.Success? ==>
      && r.value.characters.Keys == s.characters.Keys + {c.name}
      && r.value.characters[c.name] == c
      && (forall n :: n in s.characters ==> r.value.characters[n] == s.characters[n])
      && r.value.accounts == s.accounts
  {
    if c.name in s.characters then Failure(UniqueViolation)
    else Success(s.(characters := s.characters[c.name := c]))
  }

  /** A successful insert keeps the unique constraints. */
  lemma InsertAccountKeepsValid(s: Store, a: Account)
    requires s.Valid()
    requires InsertAccount(s, a).Success?
    ensures InsertAccount(s, a).value.Valid()
  {
  }

  lemma InsertCharacterKeepsValid(s: Store, c: Character)
    requires s.Valid()
    requires InsertCharacter(s, c).Success?
    ensures InsertCharacter(s, c).value.Valid()
  {
  }
}

=== FILE: validation.dfy ===
/**
 The field-validation layer: the subset of Joi that the route schemas use,
 written as data (`Rule`) plus one interpreter (`Accepts`).

 Strings are measured the way JavaScript measures them (`String.length`,
 UTF-16 code units), and the one pattern the schemas use,
 `^[가-힣a-zA-Z0-9]+$`, is modelled by a character class and a matcher.
 */
module Validation {
  import opened Wrappers
  import opened Json

  // ---------------------------------------------------------------------------
  // Characters and string length
  // ---------------------------------------------------------------------------

  /** Hangul syllables, the range 가 (U+AC00) to 힣 (U+D7A3). */
  predicate IsHangulSyllable(c: char) {
    '\U{AC00}' <= c <= '\U{D7A3}'
  }

  predicate IsAsciiLetterOrDigit(c: char) {
    ('a' <= c <= 'z') || ('A' <= c <= 'Z') || ('0' <= c <= '9')
  }

  /** The character class `[가-힣a-zA-Z0-9]`. */
  predicate IsNameChar(c: char) {
    IsHangulSyllable(c) || IsAsciiLetterOrDigit(c)
  }

  /** A character JavaScript stores in one UTF-16 code unit. */
  predicate IsBmp(c: char) {
    c as int <= 0xFFFF
  }

  function CodeUnits(c: char): nat {
    if IsBmp(c) then 1 else 2
  }

  /** JavaScript's `String.length`: characters outside the BMP take two code units. */
  function Utf16Length(s: string): (n: nat)
    ensures |s| <= n <= 2 * |s|
    ensures n == 0 <==> s == []
  {
    if s == [] then 0 else CodeUnits(s[0]) + Utf16Length(s[1..])
  }

  /** On text made of BMP characters only, JavaScript's length is the character count. */
  lemma {:induction false} Utf16LengthOfBmp(s: string)
    requires forall i :: 0 <= i < |s| ==> IsBmp(s[i])
    ensures Utf16Length(s) == |s|
  {
    if s != [] {
      assert forall i :: 0 <= i < |s[1..]| ==> IsBmp(s[1..][i]) by {
        forall i | 0 <= i < |s[1..]| ensures IsBmp(s[1..][i]) {
          assert s[1..][i] == s[i + 1];
        }
      }
      Utf16LengthOfBmp(s[1..]);
    }
  }

  /** The regular expression `^[가-힣a-zA-Z0-9]+$`, read as a matcher: one
      character of the class, then either the end of the input or another match. */
  predicate MatchesNamePattern(s: string)
  {
    |s| >= 1 && IsNameChar(s[0]) && (|s| == 1 || MatchesNamePattern(s[1..]))
  }

  /** The matcher accepts exactly the non-empty strings whose every character is in the class. */
  lemma {:induction false} NamePatternIff(s: string)
    ensures MatchesNamePattern(s) <==> s != [] && forall i :: 0 <= i < |s| ==> IsNameChar(s[i])
  {
    if |s| > 1 {
      NamePatternIff(s[1..]);
      assert forall i :: 1 <= i < |s| ==> s[i] == s[1..][i - 1];
      if forall i :: 0 <= i < |s| ==> IsNameChar(s[i]) {
        assert forall i :: 0 <= i < |s[1..]| ==> IsNameChar(s[1..][i]) by {
          forall i | 0 <= i < |s[1..]| ensures IsNameChar(s[1..][i]) {
            assert s[1..][i] == s[i + 1];
          }
        }
      }
    }
  }

  /** Every character of the class is in the BMP, so a matching string's
      JavaScript length is its character count. */
  lemma PatternLengthIsCharCount(s: string)
    requires MatchesNamePattern(s)
    ensures Utf16Length(s) == |s|
  {
  }

  // ---------------------------------------------------------------------------
  // Joi rules
  // ---------------------------------------------------------------------------

  /** The Joi schema forms that occur in the routes.
      - `Str(min, max, pattern)`: `Joi.string()` with `.min(min)`, an optional `.max`,
        and, when `pattern` holds, `.pattern(/^[가-힣a-zA-Z0-9]+$/)`;
      - `Email`: `Joi.string().email()`;
      - `Num(integer, positive)`: `Joi.number()` with optional `.integer()` and `.positive()`;
      - `Obj(keys)`: `Joi.object({...})`. */
  datatype Rule =
    | Str(min: nat, max: Option<nat>, pattern: bool)
    | Email
    | Num(integer: bool, positive: bool)
    | Obj(keys: seq<Key>)

  /** One declared key of an object schema; `required` is Joi's `.required()`. */
  datatype Key = Key(name: string, rule: Rule, required: bool)

  function KeyNames(keys: seq<Key>): (names: set<string>)
    ensures forall i :: 0 <= i < |keys| ==> keys[i].name in names
    ensures forall k :: k in names ==> exists i :: 0 <= i < |keys| && keys[i].name == k
  {
    set i | 0 <= i < |keys| :: keys[i].name
  }

  predicate IsIntegral(n: real) {
    n.Floor as real == n
  }

  /** Whether a string passes `Joi.string()` with the given bounds and pattern.
      `Joi.string()` refuses the empty string unless `.min(0)` is given; no route gives it,
      so a `min` of 0 here means the schema has no `.min`. */
  predicate StringAccepted(s: string, min: nat, max: Option<nat>, pattern: bool) {
    && s != []
    && min <= Utf16Length(s)
    && (max.Some? ==> Utf16Length(s) <= max.value)
    && (pattern ==> MatchesNamePattern(s))
  }

  /** Whether Joi's `validate` reports no error for value `v` under `rule`.
      The grammar of `.email()` is not modelled; it is the parameter `isEmail`.
      An object refuses keys its schema does not declare (Joi's default),
      needs every required key, and checks every declared key that is present. */
  function Accepts(rule: Rule, v: JsonValue, isEmail: string -> bool): (ok: bool)
    ensures ok && rule.Str? ==>
      && v.JString? && v.s != []
      && rule.min <= Utf16Length(v.s)
      && (rule.max.Some? ==> Utf16Length(v.s) <= rule.max.value)
      && (rule.pattern ==> forall i :: 0 <= i < |v.s| ==> IsNameChar(v.s[i]))
    ensures ok && rule.Email? ==> v.JString? && v.s != [] && isEmail(v.s)
    ensures ok && rule.Num? ==>
      v.JNumber? && (rule.integer ==> IsIntegral(v.n)) && (rule.positive ==> v.n > 0.0)
    ensures ok && rule.Obj? ==>
      && v.JObject?
      && (forall k :: k in v.fields ==> exists i :: 0 <= i < |rule.keys| && rule.keys[i].name == k)
      && (forall i :: 0 <= i < |rule.keys| && rule.keys[i].required ==> rule.keys[i].name in v.fields)
      && (forall i :: 0 <= i < |rule.keys| && rule.keys[i].name in v.fields ==>
            Accepts(rule.keys[i].rule, v.fields[rule.keys[i].name], isEmail))
    decreases rule
  {
    match rule
    case Str(min, max, pattern) =>
      v.JString? && (NamePatternIff(v.s); StringAccepted(v.s, min, max, pattern))
    case Email =>
      v.JString? && v.s != [] && isEmail(v.s)
    case Num(integer, positive) =>
      && v.JNumber?
      && (integer ==> IsIntegral(v.n))
      && (positive ==> v.n > 0.0)
    case Obj(keys) =>
      && v.JObject?
      && v.fields.Keys <= KeyNames(keys)
      && forall i :: 0 <= i < |keys| ==>
           && (keys[i].required ==> keys[i].name in v.fields)
           && (keys[i].name in v.fields ==> Accepts(keys[i].rule, v.fields[keys[i].name], isEmail))
  }

  // ---------------------------------------------------------------------------
  // Field-level readings of the rules the schemas use
  // ---------------------------------------------------------------------------

  /** A string with the name pattern and bounds `lo..hi` is accepted exactly when its
      character count is in `lo..hi` and every character is Hangul or ASCII alphanumeric. */
  lemma PatternStringIff(s: string, lo: nat, hi: nat, isEmail: string -> bool)
    requires 1 <= lo
    ensures Accepts(Str(lo, Some(hi), true), JString(s), isEmail)
        <==> lo <= |s| <= hi && forall i :: 0 <= i < |s| ==> IsNameChar(s[i])
  {
    NamePatternIff(s);
    if forall i :: 0 <= i < |s| ==> IsNameChar(s[i]) {
      Utf16LengthOfBmp(s);
    }
  }

  /** A field absent from the body fails a schema that requires it, whatever else the body holds. */
  lemma MissingRequiredKeyRejects(keys: seq<Key>, fields: map<string, JsonValue>, i: nat, isEmail: string -> bool)
    requires i < |keys| && keys[i].required && keys[i].name !in fields
    ensures !Accepts(Obj(keys), JObject(fields), isEmail)
  {
  }

  /** A body carrying a key its schema does not declare is refused. */
  lemma UndeclaredKeyRejects(keys: seq<Key>, fields: map<string, JsonValue>, k: string, isEmail: string -> bool)
    requires k in fields
    requires forall i :: 0 <= i < |keys| ==> keys[i].name != k
    ensures !Accepts(Obj(keys), JObject(fields), isEmail)
  {
  }
}

=== FILE: wrappers.dfy ===
/** Optional values and storage results, shared by the rest of the model. */
module Wrappers {

  /** A value that may be absent: JavaScript's `undefined`/`null` for a field or a lookup. */
  datatype Option<+T> = None | Some(value: T)

  /** The result of a storage call: the new state, or the fault it raised. */
  datatype Result<+R, +E> = Success(value: R) | Failure(error: E)
}
